=== FILE: README.md ===
# datxpy core in Dafny

A model of the two core files of datxpy, a reader for Zygo `.datx` height maps (HDF5 files).

`reader.dfy` (module `Reader`) models `reader.py`:

- `decode_group`: the recursive type dispatch that turns groups, attribute managers, datasets, numpy arrays, structured records, byte strings and lists into dictionaries, text and plain values.
- `convert` and `void2dict`: the `dict(zip(...))` steps that build dictionaries.
- `hdf5_structure`: its printed tree, written as a function that returns the lines.

The HDF5 objects and the Python values they decode to share one datatype `Value`, because the decoder is applied again to its own outputs.

`utils.dfy` (module `Utils`) models `utils.py`:

- `remove_nodata`: masking cells at or above a threshold as NaN.
- `fill_nodata`: masking cells equal to the threshold, then the nearest-neighbour re-evaluation of the grid. The re-evaluation is specified relationally: every cell gets the height of a valid sample cell at minimal distance.
- `plane`.
- The flatten / subtract / reshape steps of `remove_offset`.

Grids are sequences of rows of exact reals, and `None` stands for a NaN cell.

`wrappers.dfy` (module `Wrappers`) holds the `Option` and `Result` types both modules use.

Where the docstrings read differently from the code, the model follows the code:

- A dataset's `values` is the raw value read from the file, not decoded further.
- A one-element list or tuple gives back its element as it is, without decoding it.
- Only a numeric array of shape exactly `(1,)` is unwrapped to a scalar.

There is one exception: the record step of `void2dict`. For a record with exactly one field, the code fails or truncates (see Findings). The decoder `Reader.Decode` therefore uses the corrected step `Reader.RecordDict`. The step as written is kept separately as `Reader.RecordDictAsWritten`. The two agree on every record that does not have exactly one field.

## Model

| member | source | states |
|---|---|---|
| Reader.DecodeResultKinds | reader.py:123-192 | Over every input, the dispatch gives the kinds of result the docstring promises. Groups, attribute managers and datasets give dictionaries, and a dataset's always has `attributes`. Byte strings give text, and ASCII byte strings give text of the same length. A structured array gives a list of dictionaries, one per record, or the dictionary alone for a single record. Dictionaries, text and numbers are returned unchanged. |
| Reader.ZipMap | reader.py:120 | `dict(zip(keys, vals))` has as keys exactly the first min(#keys, #values) keys. Each key maps to the value paired with its last occurrence, so later pairs win and the surplus of the longer side is dropped. |
| Reader.Convert | reader.py:102 | `convert` has as keys exactly the entry names. Each name maps to the decoded value of the last entry so named. |
| Reader.RecordDict | reader.py:120 | One record becomes a dictionary whose keys are the field names, each holding the decoded field value at its position, with `zip` truncation. This is the corrected `void2dict` step (see Findings). |
| Reader.DecodeGroup | reader.py:141-147 | A group becomes a dictionary keyed by its member names plus `attributes` exactly when it has attributes. That key holds the decoded attribute set and overrides a member so named. Every other name holds its decoded member. |
| Reader.DecodeAttrSet | reader.py:149-151 | An attribute manager becomes a dictionary keyed by exactly the attribute names, holding the decoded values. |
| Reader.DecodeDataset | reader.py:153-162 | A dataset always gets `attributes`, an empty dictionary when there are none. It gets `values` exactly when the read succeeds, holding the raw value. There are no other keys. |
| Reader.DecodeNumericArray | reader.py:164-177 | A numeric array of shape `(1,)` becomes its only element. A numeric array of any other shape, or a non-object, non-structured array of another dtype (booleans, fixed-length strings, ...), comes back unchanged. Structured arrays are a separate case, `DecodeStructArray`. |
| Reader.SingletonMatrixStays | reader.py:166 | A 1×1 numeric array is not of shape `(1,)` and is returned unchanged. |
| Reader.DecodeObjectArray | reader.py:170-171 | An object array is decoded element by element, in order. A single decoded element is returned bare, otherwise the result is the list of decoded elements. |
| Reader.DecodeStructArray | reader.py:174-175 | A structured array becomes one record dictionary per record, in record order, and a single record gives its dictionary alone. The record dictionaries use the corrected step. For every record without exactly one field, that step gives what `void2dict` as written gives. |
| Reader.DecodeRecord | reader.py:179-181 | A record is decoded field by field. A single field is returned bare, otherwise the result is the list of decoded fields. |
| Reader.DecodeBytes | reader.py:183-185 | Decoding the ASCII bytes of a string gives that string back as text. |
| Reader.DecodeTextInverse | reader.py:185 | The other direction of the round trip: ASCII bytes decode to ASCII text, whose encoding is the same bytes. |
| Reader.DecodeList | reader.py:187-189 | A length-one list or tuple becomes its element. Any other length comes back unchanged, and decoding it again changes nothing. |
| Reader.DecodePassThrough | reader.py:190-192 | Dictionaries, text and numbers come back unchanged. |
| Reader.DecodeHelloBytes | tests/test_reader.py:49-54 | `b"hello"` decodes to `"hello"`. |
| Reader.DecodeSingleNumber | tests/test_reader.py:56-61 | The array `[42]` decodes to 42. |
| Reader.DecodeTwoRecords | tests/test_reader.py:37-47 | The records (1, 2.0) and (3, 4.0) give two dictionaries, with `field1` of the first = 1 and `field2` of the second = 4.0. |
| Reader.RecordDictAsWritten | reader.py:120 | The record step as the code writes it. It agrees with `RecordDict` for records without exactly one field. A one-field numeric record fails in `zip`, and a one-field byte-string record is zipped with the characters of its text. |
| Reader.OneFieldRecordCounterexample | reader.py:120 | As written, field `a` = 5 gives an error where `{"a": 5}` is meant, and field `s` = `b"hi"` gives `{"s": "h"}` where `{"s": "hi"}` is meant. |
| Reader.ListingLength | reader.py:84-90 | The structure listing has exactly one line per group or dataset in the tree, nested ones included. Other members print nothing. |
| Reader.ListingIndented | reader.py:73-90 | The listing has one depth per line, where `Depths` gives the nesting depth of each listed node in listing order. Line k starts with the starting indent plus 4 × (the depth of its node) spaces, followed by the `[Group] ` or `[Dataset] ` tag. |
| Reader.ListingAppend | reader.py:84 | Members are listed in key order: the listing of two member runs is the concatenation of their listings. |
| Reader.GroupBlock | reader.py:86-88 | A group's line is `[Group] ` and its key at the current indent. Its whole sub-listing, four spaces deeper, follows directly, and then the next member's lines. |
| Reader.DatasetLine | reader.py:89-90 | A dataset's line is `[Dataset] `, its key, ` - Shape: `, the shape as a Python tuple, `, Dtype: ` and the dtype, at the current indent. The next member's lines follow directly. |
| Reader.SilentMember | reader.py:84-90 | A member that is neither a group nor a dataset adds no line. |
| Reader.ShapeTextExamples | reader.py:90 | Shapes print as Python tuples: `()`, `(5,)`, `(10, 20)`. |
| Utils.RemoveNodata | utils.py:63-67 | The result has the shape of `Z`. A cell is NaN exactly when it is at or above `thr`, and every other cell keeps its height. |
| Utils.ValidMask | utils.py:32-35 | The `fill_nodata` mask holds exactly at the cells not equal to `thr`. |
| Utils.MaskAsymmetry | utils.py:33-35 | Every cell `fill_nodata` drops is also NaN after `remove_nodata`. The cells NaN after `remove_nodata` but kept by `fill_nodata` are exactly those strictly above `thr`. |
| Utils.RemoveNodataExample | tests/test_utils.py:28-32 | On the example grid with `thr = -999`, cells (2, 2) and (3, 3) become NaN, and so does every other cell, since all heights are ≥ -999. |
| Utils.TrueCellsExact | utils.py:35-38 | The cells boolean indexing selects are exactly the cells where the mask is true. |
| Utils.TrueCellsOrdered | utils.py:37-38 | The selected cells come in strictly increasing row-major order. |
| Utils.SamplePoints | utils.py:37 | `column_stack((X[mask], Y[mask]))` gives one point per selected cell, in selection order, made of that cell's x and y coordinates. |
| Utils.MaskSelectAligned | utils.py:37-38 | `A[mask]` has one element per selected cell, and its k-th element is `A` at the k-th selected cell. So `X[mask]`, `Y[mask]` and `Z[mask]` line up. |
| Utils.NearestIndex | utils.py:39 | The chosen sample point is at minimal distance from the query point among all samples. |
| Utils.NearestGrid | utils.py:39 | Nearest-neighbour `griddata` keeps the grid's shape, and every position takes the value of a sample point nearest to it. |
| Utils.NoSamplesIffAllMissing | utils.py:33-38 | No valid sample is left exactly when every cell equals `thr`. |
| Utils.FillNodata | utils.py:32-41 | Filling fails exactly when every cell equals `thr`, that is, when no valid sample is left for `griddata` (see Left out). Otherwise the result has the shape of `Z`. |
| Utils.FillNodataNearestAt | utils.py:37-39 | After a successful fill, each cell (i, j) holds the height of a valid cell (p, q) that is nearest to (i, j) among all valid cells. So the cell is neither `thr` nor NaN. |
| Utils.FillNodataNearest | utils.py:32-41 | After a successful fill, every cell is a real number, not `thr` and not NaN. It holds the height of a valid cell at minimal distance from it among all valid cells. |
| Utils.RavelLength | utils.py:101-103 | Flattening an ny×nx grid gives ny·nx values. |
| Utils.RavelAt | utils.py:101-103 | Flattening is row-major: cell (i, j) of an ny×nx grid lands at position i·nx + j. |
| Utils.ReshapeRavel | utils.py:98-110 | Flattening a grid and reshaping it to its own shape gives the grid back. |
| Utils.RavelReshape | utils.py:110 | Reshaping a vector of length ny·nx and flattening it again gives the vector back. |
| Utils.Reshape | utils.py:110 | Reshaping gives exactly ny rows of nx values each. |
| Utils.Residual | utils.py:108 | `z_data - plane((x_data, y_data), *params)` has one value per sample: the height minus the plane at that sample's (x, y). |
| Utils.ResidualRavel | utils.py:101-108 | Subtracting the plane from the flattened arrays equals flattening the cell-by-cell residual grid. |
| Utils.RemoveOffset | utils.py:98-110 | The corrected map has the shape of `Z`, and each cell is the height minus the plane at that cell's (x, y). |
| Utils.PlaneAffine | utils.py:69-74 | The plane takes the value `c` at the origin and rises by `a` per unit of x and `b` per unit of y. The difference of two planes is the plane of the parameter differences. |
| Utils.RemoveExactPlane | utils.py:69-74 | On heights lying on a plane, removing another plane leaves the plane of the parameter differences. Removing the generating plane leaves zero everywhere. |

## Left out

- File access is not modelled: opening the file in `read` and `show_struct`. The model starts from the opened root group, given as a `Group` value.
- `show_struct`'s call of the listing on the file object is not modelled.
- The GUI (`datxpy/gui.py`), `setup.py` and the test harness are not modelled.
- Utils.RemoveOffset: the least-squares fit `curve_fit` is not modelled. The plane parameters are inputs, so the returned `params` and the "mean residual is about zero" test are not modelled.
- Utils.FillNodata: the failure on zero valid samples stands for what `griddata` (utils.py:39) does with an empty point set, read as an insufficient-data error. utils.py itself does not check this case. Depending on the scipy version, scipy raises or returns an all-NaN grid there, and that exact result is not modelled.
- Utils.NearestGrid: when several samples are equally near, scipy's choice between them is not modelled. The contract promises some nearest sample, and the body takes the first.
- Floating point is modelled as exact reals. Input grids hold no NaN, and a NaN `thr` is not modelled.
- Integer dtypes, their widths and the `astype(float)` conversion are modelled as reals.
- Reader.DecodeResultKinds: for byte strings it promises only text. It gives the length only for ASCII bytes, because multi-byte UTF-8 and invalid bytes are not modelled (see the next line).
- Reader.DecodeText: `bytes.decode()` is modelled as one character per byte. This is exact for ASCII only: multi-byte UTF-8 sequences and the error raised on invalid UTF-8 are not modelled.
- Reader.Decode: the structured-array branch uses the corrected record step `RecordDict`, not `void2dict` as written (reader.py:120). A structured array whose records have exactly one field therefore decodes to its intended dictionaries, where the code raises `TypeError` or keeps one character. The step as written is `RecordDictAsWritten`.
- Reader.DecodeStructArray: it states the corrected record dictionaries. It agrees with the code only for records without exactly one field, for the reason given under Findings.
- Reader.RecordDictAsWritten: for a record with exactly one field, the behaviour is stated only for numeric and byte-string fields.
- Reader.Decode: 0-d arrays and multi-dimensional structured arrays are not modelled. The numeric leaves of numpy's scalar types (integer, float, complex) are all one `Number`. Lists and tuples are one `List`.
- Reader.Convert: Python dictionaries keep insertion order and the model's maps do not. The order of the listing is modelled, through `Listing`.
- The exception a failed dataset read raises is not modelled: `raw` is `None` when the read fails.
- The source's copies (`np.copy`) need no model: all values are immutable, so no operation changes its input.

## Findings

| source | as written | input that shows it | evidently intended | confidence | as-written member | corrected member |
|---|---|---|---|---|---|---|
| reader.py:120 | `dict(zip(names, decode_group(record)))` decodes the record first. That unwraps a one-field record to its bare field value, which `zip` then iterates. | A structured array with a single `i4` field `a` holding 5 makes `zip` raise `TypeError`. A single `S2` field `s` holding `b"hi"` gives `{"s": "h"}`. | `{"a": 5}` and `{"s": "hi"}`: each field name paired with its decoded field value. | high; not executed | Reader.RecordDictAsWritten | Reader.RecordDict |

=== FILE: reader.dfy ===
/**
 * The recursive decoder of `reader.py`: `decode_group`, `convert`, `void2dict` and the
 * indented structure listing `hdf5_structure`.
 *
 * The decoder maps Python values to Python values, and it is applied again to its own
 * outputs (an object array's decoded elements, the record dictionaries of a structured
 * array), so one closed datatype `Value` stands both for what the HDF5 library hands over
 * (groups, attribute managers, datasets, numpy arrays and records, byte strings) and for
 * what the decoder builds (dictionaries, text).
 */
module Reader {
  import opened Wrappers

  /** The element type of a non-structured numpy array, as far as the decoder tells them apart. */
  datatype ElemKind =
    | Numeric   // a subtype of `np.number`: integers, floats, complex numbers
    | Object    // the `object` dtype: variable-length strings, nested arrays
    | Plain     // any other dtype: fixed-length strings, booleans, ...

  /** A named child of a group, or a named attribute. */
  datatype Entry = Entry(name: string, value: Value)

  /** The field values of one record of a structured array, in field order. */
  datatype Row = Row(fields: seq<Value>)

  datatype Value =
      /** An HDF5 group (the open file itself is one): its members in key order, and its attributes. */
    | Group(members: seq<Entry>, attrs: seq<Entry>)
      /** An HDF5 attribute manager, i.e. the `attrs` of a group or dataset. */
    | AttrSet(entries: seq<Entry>)
      /** An HDF5 dataset; `raw` is the value read by `dataset[()]`, `None` when that read fails. */
    | Dataset(shape: seq<nat>, dtypeName: string, attrs: seq<Entry>, raw: Option<Value>)
      /** A numpy array of shape `[|items|] + inner`; `items` is what iterating over it yields. */
    | Array(kind: ElemKind, items: seq<Value>, inner: seq<nat>)
      /** A one-dimensional structured numpy array: the dtype's field names, then its records. */
    | StructArray(names: seq<string>, records: seq<Row>)
      /** A single structured record (`np.void`), as its field values. */
    | Record(fields: seq<Value>)
    | Bytes(data: seq<bv8>)
      /** A Python list or tuple (the decoder treats both alike). */
    | List(elems: seq<Value>)
    | Dict(m: map<string, Value>)
    | Text(s: string)
    | Number(x: real)
  {
    /** The numpy shape of an array. */
    function ArrayShape(): seq<nat>
      requires Array?
    {
      [|items|] + inner
    }
  }

  /** The key under which group and dataset metadata is stored. */
  const AttributesKey: string := "attributes"
  /** The key under which a dataset's raw value is stored. */
  const ValuesKey: string := "values"

  function Min(a: nat, b: nat): nat { if a <= b then a else b }

  /** `i` is the last position among the first `n` keys holding `keys[i]`. */
  predicate LastOccurrence(keys: seq<string>, n: nat, i: nat)
    requires n <= |keys|
  {
    i < n && forall j :: i < j < n ==> keys[j] != keys[i]
  }

  /** The set of the first `n` keys. */
  function KeySet(keys: seq<string>, n: nat): set<string>
    requires n <= |keys|
  {
    set i | 0 <= i < n :: keys[i]
  }

  /**
   * `dict(zip(keys, vals))`: pairs up to the shorter of the two sequences; when a key
   * repeats, the later pair wins.
   */
  function ZipMap<V>(keys: seq<string>, vals: seq<V>): (m: map<string, V>)
    ensures m.Keys == KeySet(keys, Min(|keys|, |vals|))
    ensures forall i :: 0 <= i < Min(|keys|, |vals|) && LastOccurrence(keys, Min(|keys|, |vals|), i) ==>
              m[keys[i]] == vals[i]
  {
    ZipPrefix(keys, vals, Min(|keys|, |vals|))
  }

  /** The dictionary built from the first `n` pairs. */
  function ZipPrefix<V>(keys: seq<string>, vals: seq<V>, n: nat): (m: map<string, V>)
    requires n <= |keys| && n <= |vals|
    ensures m.Keys == KeySet(keys, n)
    ensures forall i :: 0 <= i < n && LastOccurrence(keys, n, i) ==> m[keys[i]] == vals[i]
  {
    if n == 0 then map[]
    else
      var prefix := ZipPrefix(keys, vals, n - 1);
      assert KeySet(keys, n) == KeySet(keys, n - 1) + {keys[n - 1]};
      assert forall i :: 0 <= i < n - 1 && LastOccurrence(keys, n, i) ==> LastOccurrence(keys, n - 1, i);
      prefix[keys[n - 1] := vals[n - 1]]
  }

  function Names(es: seq<Entry>): (ns: seq<string>)
    ensures |ns| == |es| && forall i :: 0 <= i < |es| ==> ns[i] == es[i].name
  {
    seq(|es|, i requires 0 <= i < |es| => es[i].name)
  }

  /** `convert`: a dictionary from each entry's name to its decoded value. */
  function Convert(es: seq<Entry>): (m: map<string, Value>)
    ensures m.Keys == KeySet(Names(es), |es|)
    ensures forall i :: 0 <= i < |es| && LastOccurrence(Names(es), |es|, i) ==> m[es[i].name] == Decode(es[i].value)
  {
    ZipMap(Names(es), seq(|es|, i requires 0 <= i < |es| => Decode(es[i].value)))
  }

  /** Every value decoded, in order. */
  function DecodeAll(vs: seq<Value>): (ds: seq<Value>)
  {
    seq(|vs|, i requires 0 <= i < |vs| => Decode(vs[i]))
  }

  /** What `decode_group` does with a list or tuple: a single element is returned bare. */
  function Unwrap(xs: seq<Value>): Value
  {
    if |xs| == 1 then xs[0] else List(xs)
  }

  /** `bytes.decode()`: every byte becomes the character with the same code. */
  function DecodeText(bs: seq<bv8>): (s: string)
  {
    seq(|bs|, i requires 0 <= i < |bs| => (bs[i] as int) as char)
  }

  /**
   * One record of a structured array as a dictionary: every field name is a key, holding the
   * decoded field value at the same position (the last one, should a name repeat); as with
   * `zip`, surplus names or fields are dropped.
   */
  function RecordDict(names: seq<string>, row: Row): (m: map<string, Value>)
    decreases row
    ensures m.Keys == KeySet(names, Min(|names|, |row.fields|))
    ensures forall i :: 0 <= i < Min(|names|, |row.fields|) && LastOccurrence(names, Min(|names|, |row.fields|), i) ==>
              m[names[i]] == Decode(row.fields[i])
  {
    ZipMap(names, DecodeAll(row.fields))
  }

  /** `decode_group`: the type dispatch, branch by branch in the source's order. */
  function Decode(v: Value): Value
  {
    match v
    case Group(members, attrs) =>
      var data := Convert(members);
      Dict(if |attrs| > 0 then data[AttributesKey := Dict(Convert(attrs))] else data)
    case AttrSet(entries) =>
      Dict(Convert(entries))
    case Dataset(_, _, attrs, raw) =>
      var data := map[AttributesKey := Dict(Convert(attrs))];
      Dict(if raw.Some? then data[ValuesKey := raw.value] else data)
    case Array(kind, items, inner) =>
      if kind == Numeric && |items| == 1 && inner == [] then items[0]
      else if kind == Object then Unwrap(DecodeAll(items))
      else v
    case StructArray(names, records) =>
      Unwrap(seq(|records|, k requires 0 <= k < |records| => Dict(RecordDict(names, records[k]))))
    case Record(fields) =>
      Unwrap(DecodeAll(fields))
    case Bytes(data) =>
      Text(DecodeText(data))
    case List(elems) =>
      if |elems| == 1 then elems[0] else v
    case _ =>
      v
  }

  // ----- what each branch of the dispatch promises -----

  /**
   * A group becomes a dictionary keyed by exactly its member names, each name holding
   * its (last) member decoded; an `attributes` key is added exactly when the group has
   * attributes, and then holds the decoded attribute set, replacing any member so named.
   */
  lemma DecodeGroup(members: seq<Entry>, attrs: seq<Entry>)
    ensures var r := Decode(Group(members, attrs));
      && r.Dict?
      && r.m.Keys == KeySet(Names(members), |members|) + (if |attrs| > 0 then {AttributesKey} else {})
      && (|attrs| > 0 ==> r.m[AttributesKey] == Decode(AttrSet(attrs)))
      && forall i :: (0 <= i < |members| && LastOccurrence(Names(members), |members|, i) &&
                      (members[i].name != AttributesKey || |attrs| == 0)) ==>
           r.m[members[i].name] == Decode(members[i].value)
  {
  }

  /** An attribute set becomes a plain dictionary keyed by exactly its attribute names. */
  lemma DecodeAttrSet(entries: seq<Entry>)
    ensures var r := Decode(AttrSet(entries));
      && r.Dict?
      && r.m.Keys == KeySet(Names(entries), |entries|)
      && forall i :: 0 <= i < |entries| && LastOccurrence(Names(entries), |entries|, i) ==>
           r.m[entries[i].name] == Decode(entries[i].value)
  {
  }

  /**
   * A dataset always becomes a dictionary with an `attributes` key (an empty dictionary
   * when it has no attributes); `values` is present exactly when the raw read succeeds,
   * and holds the raw value undecoded. No other key appears.
   */
  lemma DecodeDataset(shape: seq<nat>, dtypeName: string, attrs: seq<Entry>, raw: Option<Value>)
    ensures var r := Decode(Dataset(shape, dtypeName, attrs, raw));
      && r.Dict?
      && r.m.Keys == {AttributesKey} + (if raw.Some? then {ValuesKey} else {})
      && r.m[AttributesKey] == Decode(AttrSet(attrs))
      && (attrs == [] ==> r.m[AttributesKey] == Dict(map[]))
      && (raw.Some? ==> r.m[ValuesKey] == raw.value)
  {
    if attrs == [] {
      assert KeySet(Names(attrs), 0) == {};
    }
  }

  /**
   * A numeric array of shape exactly (1,) becomes its sole element; a numeric array of any
   * other shape, such as (1, 1), and an array of any other non-object dtype stay unchanged.
   */
  lemma DecodeNumericArray(kind: ElemKind, items: seq<Value>, inner: seq<nat>)
    requires kind != Object
    ensures var v := Array(kind, items, inner);
      && (kind == Numeric && v.ArrayShape() == [1] ==> |items| == 1 && Decode(v) == items[0])
      && (kind != Numeric || v.ArrayShape() != [1] ==> Decode(v) == v)
  {
    var v := Array(kind, items, inner);
    if v.ArrayShape() == [1] {
      assert |items| == 1 && inner == [] by {
        assert v.ArrayShape()[0] == |items|;
        assert |v.ArrayShape()| == 1 + |inner|;
      }
    }
  }

  /** The shape (1, 1) is not (1,): a one-element matrix stays an array. */
  lemma SingletonMatrixStays(x: Value)
    ensures var v := Array(Numeric, [x], [1]); v.ArrayShape() == [1, 1] && Decode(v) == v
  {
  }

  /** An object array is decoded element by element, and a single decoded element is returned bare. */
  lemma DecodeObjectArray(items: seq<Value>, inner: seq<nat>)
    ensures var r := Decode(Array(Object, items, inner));
      && (|items| == 1 ==> r == Decode(items[0]))
      && (|items| != 1 ==>
            r.List? && |r.elems| == |items| && forall i :: 0 <= i < |items| ==> r.elems[i] == Decode(items[i]))
  {
  }

  /**
   * A structured array becomes one dictionary per record, in record order; a single record
   * is returned as its dictionary alone.
   */
  lemma DecodeStructArray(names: seq<string>, records: seq<Row>)
    ensures var r := Decode(StructArray(names, records));
      && (|records| == 1 ==> r == Dict(RecordDict(names, records[0])))
      && (|records| != 1 ==>
            r.List? && |r.elems| == |records| &&
            forall k :: 0 <= k < |records| ==> r.elems[k] == Dict(RecordDict(names, records[k])))
    ensures forall k :: 0 <= k < |records| && |records[k].fields| != 1 ==>
              RecordDictAsWritten(names, records[k]) == Some(RecordDict(names, records[k]))
  {
  }

  /** A single record is decoded field by field, and a single field is returned bare. */
  lemma DecodeRecord(fields: seq<Value>)
    ensures var r := Decode(Record(fields));
      && (|fields| == 1 ==> r == Decode(fields[0]))
      && (|fields| != 1 ==> r == List(DecodeAll(fields)) && |r.elems| == |fields|)
  {
  }

  /**
   * A list or tuple of length one becomes its element, undecoded; any other length is kept
   * as it is, and decoding that result again changes nothing.
   */
  lemma DecodeList(elems: seq<Value>)
    ensures |elems| == 1 ==> Decode(List(elems)) == elems[0]
    ensures |elems| != 1 ==> Decode(List(elems)) == List(elems) && Decode(Decode(List(elems))) == Decode(List(elems))
    ensures Decode(List(elems)) == Unwrap(elems)
  {
  }

  /** Dictionaries, text and numbers match no branch and come back unchanged. */
  lemma DecodePassThrough(v: Value)
    requires v.Dict? || v.Text? || v.Number?
    ensures Decode(v) == v
  {
  }

  /** The ASCII encoding of a string, one byte per character; decoding the bytes gives the string back. */
  function EncodeAscii(s: string): (bs: seq<bv8>)
    requires forall i :: 0 <= i < |s| ==> s[i] < 128 as char
    ensures |bs| == |s| && DecodeText(bs) == s
  {
    var bs := seq(|s|, i requires 0 <= i < |s| => (s[i] as int) as bv8);
    forall i | 0 <= i < |s| ensures DecodeText(bs)[i] == s[i] {
      assert bs[i] as int == s[i] as int;
    }
    bs
  }

  /** A byte string becomes text, and the ASCII bytes of a string decode back to that string. */
  lemma DecodeBytes(s: string)
    requires forall i :: 0 <= i < |s| ==> s[i] < 128 as char
    ensures Decode(Bytes(EncodeAscii(s))) == Text(s)
  {
  }

  /** The other direction: ASCII bytes decode to ASCII text, whose encoding is the same bytes. */
  lemma DecodeTextInverse(bs: seq<bv8>)
    requires forall i :: 0 <= i < |bs| ==> bs[i] < 128
    ensures forall i :: 0 <= i < |DecodeText(bs)| ==> DecodeText(bs)[i] < 128 as char
    ensures EncodeAscii(DecodeText(bs)) == bs
  {
    var s := DecodeText(bs);
    assert forall i :: 0 <= i < |bs| ==> s[i] as int == bs[i] as int;
    assert forall i :: 0 <= i < |bs| ==> EncodeAscii(s)[i] == bs[i];
  }

  /**
   * The kinds of result the decoder promises, over every input: groups, attribute sets and
   * datasets become dictionaries, byte strings become text (ASCII bytes one character each), structured
   * arrays become a list of dictionaries (a lone record's dictionary on its own), and
   * dictionaries, text and numbers are already decoded.
   */
  lemma DecodeResultKinds(v: Value)
    ensures v.Group? || v.AttrSet? || v.Dataset? ==> Decode(v).Dict?
    ensures v.Dataset? ==> AttributesKey in Decode(v).m
    ensures v.Bytes? ==> Decode(v).Text?
    ensures v.Bytes? && (forall i :: 0 <= i < |v.data| ==> v.data[i] < 128) ==> |Decode(v).s| == |v.data|
    ensures v.StructArray? && |v.records| == 1 ==> Decode(v).Dict?
    ensures v.StructArray? && |v.records| != 1 ==>
              Decode(v).List? && |Decode(v).elems| == |v.records| &&
              forall k :: 0 <= k < |v.records| ==> Decode(v).elems[k].Dict?
    ensures v.Dict? || v.Text? || v.Number? ==> Decode(v) == v
  {
  }

  // ----- the recorded examples -----

  /** `b"hello"` decodes to the text "hello". */
  lemma DecodeHelloBytes()
    ensures Decode(Bytes([104, 101, 108, 108, 111])) == Text("hello")
  {
  }

  /** The one-element integer array `[42]` decodes to the number 42. */
  lemma DecodeSingleNumber()
    ensures Decode(Array(Numeric, [Number(42.0)], [])) == Number(42.0)
  {
  }

  /** The records (1, 2.0) and (3, 4.0) with fields `field1`, `field2` become two dictionaries. */
  lemma DecodeTwoRecords()
    ensures var r := Decode(StructArray(["field1", "field2"],
                                        [Row([Number(1.0), Number(2.0)]), Row([Number(3.0), Number(4.0)])]));
      && r.List? && |r.elems| == 2
      && r.elems[0].Dict? && r.elems[0].m["field1"] == Number(1.0)
      && r.elems[1].Dict? && r.elems[1].m["field2"] == Number(4.0)
  {
    var names := ["field1", "field2"];
    assert LastOccurrence(names, 2, 0);
    assert LastOccurrence(names, 2, 1);
  }

  // ----- void2dict as written -----

  /** Numeric and byte-string fields: the one-field records for which the source's behaviour is modelled. */
  predicate ScalarField(v: Value)
  {
    v.Number? || v.Bytes?
  }

  /**
   * `dict(zip(names, decode_group(record)))` exactly as `void2dict` writes it: the record is
   * decoded first, which for a one-field record unwraps the field list to the bare field
   * value, so `zip` then iterates the characters of a text field and raises on a number.
   * `None` stands for that `TypeError`.
   */
  function RecordDictAsWritten(names: seq<string>, row: Row): (r: Option<map<string, Value>>)
    requires |row.fields| == 1 ==> ScalarField(row.fields[0])
    ensures |row.fields| != 1 ==> r == Some(RecordDict(names, row))
    ensures |row.fields| == 1 && row.fields[0].Number? ==> r == None
    ensures |row.fields| == 1 && row.fields[0].Bytes? ==>
              r == Some(ZipMap(names, Chars(DecodeText(row.fields[0].data))))
  {
    var fields := row.fields;
    assert |fields| == 1 ==> Decode(Record(fields)) == Decode(fields[0]);
    assert |fields| != 1 ==> Decode(Record(fields)) == List(DecodeAll(fields));
    match Decode(Record(fields))
    case List(xs) => Some(ZipMap(names, xs))
    case Text(s) => Some(ZipMap(names, Chars(s)))
    case _ => None
  }

  /** What iterating over a text yields: its characters, each as a one-character text. */
  function Chars(s: string): (cs: seq<Value>)
  {
    seq(|s|, i requires 0 <= i < |s| => Text([s[i]]))
  }

  /**
   * For a one-field record the source and the intended dictionary part: a numeric field
   * raises instead of giving {"a": 5}, and a text field keeps only its first character.
   */
  lemma OneFieldRecordCounterexample()
    ensures RecordDictAsWritten(["a"], Row([Number(5.0)])) == None
    ensures RecordDict(["a"], Row([Number(5.0)])) == map["a" := Number(5.0)]
    ensures RecordDictAsWritten(["s"], Row([Bytes([104, 105])])) == Some(map["s" := Text("h")])
    ensures RecordDict(["s"], Row([Bytes([104, 105])])) == map["s" := Text("hi")]
  {
    assert DecodeText([104, 105]) == "hi";
    assert Chars("hi")[0] == Text("h");
  }

  // ----- hdf5_structure -----

  function Spaces(n: nat): (s: string)
    ensures |s| == n && forall i :: 0 <= i < n ==> s[i] == ' '
  {
    if n == 0 then "" else Spaces(n - 1) + " "
  }

  /** The decimal digits of `n`. */
  function NatText(n: nat): (s: string)
    ensures |s| >= 1
  {
    if n < 10 then ["0123456789"[n]] else NatText(n / 10) + ["0123456789"[n % 10]]
  }

  function JoinComma(ns: seq<nat>): string
  {
    if |ns| == 0 then "" else if |ns| == 1 then NatText(ns[0]) else NatText(ns[0]) + ", " + JoinComma(ns[1..])
  }

  /** Python's `repr` of a shape tuple: "()", "(5,)", "(10, 10)". */
  function ShapeText(shape: seq<nat>): string
  {
    if |shape| == 1 then "(" + NatText(shape[0]) + ",)" else "(" + JoinComma(shape) + ")"
  }

  /**
   * `hdf5_structure` with its printed lines returned: one line per member group or dataset,
   * in key order, indented by `indent` spaces; each group's own listing, indented four more,
   * follows its line. Members that are neither produce no line.
   */
  function Listing(members: seq<Entry>, indent: nat): seq<string>
  {
    if members == [] then []
    else
      var key := members[0].name;
      var here := match members[0].value
        case Group(children, _) => [Spaces(indent) + "[Group] " + key] + Listing(children, indent + 4)
        case Dataset(shape, dtypeName, _, _) =>
          [Spaces(indent) + "[Dataset] " + key + " - Shape: " + ShapeText(shape) + ", Dtype: " + dtypeName]
        case _ => [];
      here + Listing(members[1..], indent)
  }

  /** The number of groups and datasets in a member list, counting nested ones. */
  function CountListed(members: seq<Entry>): nat
  {
    if members == [] then 0
    else
      (match members[0].value
       case Group(children, _) => 1 + CountListed(children)
       case Dataset(_, _, _, _) => 1
       case _ => 0)
      + CountListed(members[1..])
  }

  /** The listing has exactly one line per group or dataset of the tree. */
  lemma {:induction false} ListingLength(members: seq<Entry>, indent: nat)
    ensures |Listing(members, indent)| == CountListed(members)
  {
    if members != [] {
      ListingLength(members[1..], indent);
      match members[0].value
      case Group(children, _) => ListingLength(children, indent + 4);
      case _ =>
    }
  }

  /** The listing of two member lists one after the other is the two listings one after the other. */
  lemma {:induction false} ListingAppend(ms1: seq<Entry>, ms2: seq<Entry>, indent: nat)
    ensures Listing(ms1 + ms2, indent) == Listing(ms1, indent) + Listing(ms2, indent)
  {
    if ms1 == [] {
      assert ms1 + ms2 == ms2;
    } else {
      assert (ms1 + ms2)[0] == ms1[0];
      assert (ms1 + ms2)[1..] == ms1[1..] + ms2;
      ListingAppend(ms1[1..], ms2, indent);
    }
  }

  /**
   * The nesting depth of the node each line of the listing stands for, in listing order:
   * 0 for a member of the listed group itself, one more for every group it is nested in.
   */
  function Depths(members: seq<Entry>): seq<nat>
  {
    if members == [] then []
    else
      var here := match members[0].value
        case Group(children, _) => [0] + Deeper(Depths(children))
        case Dataset(_, _, _, _) => [0]
        case _ => [];
      here + Depths(members[1..])
  }

  function Deeper(ds: seq<nat>): seq<nat>
  {
    seq(|ds|, k requires 0 <= k < |ds| => ds[k] + 1)
  }

  predicate StartsWith(s: string, prefix: string)
  {
    |prefix| <= |s| && s[..|prefix|] == prefix
  }

  /**
   * `line` is the header of a node at nesting depth `depth` below a listing indented by
   * `indent`: `indent + 4 * depth` spaces, then the `[Group] ` or `[Dataset] ` tag.
   */
  predicate HeaderAtDepth(line: string, indent: nat, depth: nat)
  {
    var n := indent + 4 * depth;
    |line| >= n && line[..n] == Spaces(n) && (StartsWith(line[n..], "[Group] ") || StartsWith(line[n..], "[Dataset] "))
  }

  /** Every line is a header at the depth given at the same position. */
  predicate Aligned(lines: seq<string>, depths: seq<nat>, indent: nat)
  {
    |lines| == |depths| && forall k :: 0 <= k < |lines| ==> HeaderAtDepth(lines[k], indent, depths[k])
  }

  /** A line made of the indent, a tag and anything after it is a header at depth 0. */
  lemma TaggedLine(indent: nat, tag: string, tail: string)
    requires tag == "[Group] " || tag == "[Dataset] "
    ensures HeaderAtDepth(Spaces(indent) + tag + tail, indent, 0)
  {
    var t := tag + tail;
    var line := Spaces(indent) + t;
    assert Spaces(indent) + tag + tail == line;
    assert line[..indent] == Spaces(indent);
    assert line[indent..] == t;
    assert t[..|tag|] == tag;
    assert StartsWith(line[indent..], tag);
  }

  lemma AlignedConcat(a: seq<string>, da: seq<nat>, b: seq<string>, db: seq<nat>, indent: nat)
    requires Aligned(a, da, indent) && Aligned(b, db, indent)
    ensures Aligned(a + b, da + db, indent)
  {
    forall k | 0 <= k < |a + b| ensures HeaderAtDepth((a + b)[k], indent, (da + db)[k]) {
      if k < |a| {
        assert (a + b)[k] == a[k] && (da + db)[k] == da[k];
      } else {
        assert (a + b)[k] == b[k - |a|] && (da + db)[k] == db[k - |a|];
      }
    }
  }

  /** Four more spaces of indent is one more level of depth. */
  lemma AlignedDeeper(lines: seq<string>, depths: seq<nat>, indent: nat)
    requires Aligned(lines, depths, indent + 4)
    ensures Aligned(lines, Deeper(depths), indent)
  {
    forall k | 0 <= k < |lines| ensures HeaderAtDepth(lines[k], indent, Deeper(depths)[k]) {
      assert indent + 4 + 4 * depths[k] == indent + 4 * (depths[k] + 1);
      assert HeaderAtDepth(lines[k], indent + 4, depths[k]);
    }
  }

  /**
   * Every line of the listing is a `[Group] ` or `[Dataset] ` header indented by `indent`
   * plus four spaces for every group the listed node is nested in.
   */
  lemma {:induction false} ListingIndented(members: seq<Entry>, indent: nat)
    ensures |Listing(members, indent)| == |Depths(members)|
    ensures forall k :: 0 <= k < |Listing(members, indent)| ==>
              HeaderAtDepth(Listing(members, indent)[k], indent, Depths(members)[k])
  {
    ListingAligned(members, indent);
  }

  lemma {:induction false} ListingAligned(members: seq<Entry>, indent: nat)
    ensures Aligned(Listing(members, indent), Depths(members), indent)
  {
    if members != [] {
      var key := members[0].name;
      ListingAligned(members[1..], indent);
      var rest, restDepths := Listing(members[1..], indent), Depths(members[1..]);
      match members[0].value {
        case Group(children, _) =>
          var head := Spaces(indent) + "[Group] " + key;
          var sub := Listing(children, indent + 4);
          assert Listing(members, indent) == [head] + sub + rest;
          assert Depths(members) == [0] + Deeper(Depths(children)) + restDepths;
          TaggedLine(indent, "[Group] ", key);
          ListingAligned(children, indent + 4);
          AlignedDeeper(sub, Depths(children), indent);
          AlignedConcat([head], [0], sub, Deeper(Depths(children)), indent);
          AlignedConcat([head] + sub, [0] + Deeper(Depths(children)), rest, restDepths, indent);
        case Dataset(shape, dtypeName, _, _) =>
          var head := Spaces(indent) + "[Dataset] " + key + " - Shape: " + ShapeText(shape) + ", Dtype: " + dtypeName;
          assert Listing(members, indent) == [head] + rest;
          assert Depths(members) == [0] + restDepths;
          DatasetHeader(indent, key, shape, dtypeName);
          AlignedConcat([head], [0], rest, restDepths, indent);
        case _ =>
          assert Listing(members, indent) == rest;
          assert Depths(members) == restDepths;
      }
    }
  }

  lemma DatasetHeader(indent: nat, key: string, shape: seq<nat>, dtypeName: string)
    ensures HeaderAtDepth(
              Spaces(indent) + "[Dataset] " + key + " - Shape: " + ShapeText(shape) + ", Dtype: " + dtypeName,
              indent, 0)
  {
    var tail := key + " - Shape: " + ShapeText(shape) + ", Dtype: " + dtypeName;
    assert Spaces(indent) + "[Dataset] " + key + " - Shape: " + ShapeText(shape) + ", Dtype: " + dtypeName
        == Spaces(indent) + "[Dataset] " + tail;
    TaggedLine(indent, "[Dataset] ", tail);
  }

  /** A group's line comes first, its whole sub-listing directly after it, then the next member's lines. */
  lemma GroupBlock(key: string, children: seq<Entry>, attrs: seq<Entry>, rest: seq<Entry>, indent: nat)
    ensures var lines := Listing([Entry(key, Group(children, attrs))] + rest, indent);
      var sub := Listing(children, indent + 4);
      && lines[0] == Spaces(indent) + "[Group] " + key
      && lines[1..1 + |sub|] == sub
      && lines[1 + |sub|..] == Listing(rest, indent)
  {
    var ms := [Entry(key, Group(children, attrs))] + rest;
    assert ms[1..] == rest;
  }

  /** A dataset's line gives its name, its shape as a Python tuple and its dtype; the next member's lines follow. */
  lemma DatasetLine(key: string, shape: seq<nat>, dtypeName: string, attrs: seq<Entry>, raw: Option<Value>,
                    rest: seq<Entry>, indent: nat)
    ensures Listing([Entry(key, Dataset(shape, dtypeName, attrs, raw))] + rest, indent)
         == [Spaces(indent) + "[Dataset] " + key + " - Shape: " + ShapeText(shape) + ", Dtype: " + dtypeName]
            + Listing(rest, indent)
  {
    var ms := [Entry(key, Dataset(shape, dtypeName, attrs, raw))] + rest;
    assert ms[1..] == rest;
  }

  /** A member that is neither a group nor a dataset prints nothing. */
  lemma SilentMember(key: string, v: Value, rest: seq<Entry>, indent: nat)
    requires !v.Group? && !v.Dataset?
    ensures Listing([Entry(key, v)] + rest, indent) == Listing(rest, indent)
  {
    var ms := [Entry(key, v)] + rest;
    assert ms[1..] == rest;
  }

  /** Shapes print as Python tuples do. */
  lemma ShapeTextExamples()
    ensures ShapeText([]) == "()"
    ensures ShapeText([5]) == "(5,)"
    ensures ShapeText([10, 20]) == "(10, 20)"
  {
    assert NatText(5) == "5";
    assert NatText(10) == "10" by {
      assert NatText(1) == "1";
      assert NatText(10) == NatText(1) + ["0123456789"[0]];
    }
    assert NatText(20) == "20" by {
      assert NatText(2) == "2";
      assert NatText(20) == NatText(2) + ["0123456789"[0]];
    }
    assert JoinComma([20]) == "20";
    assert [10, 20][1..] == [20];
    assert JoinComma([10, 20]) == "10, 20";
  }
}

=== FILE: utils.dfy ===
/**
 * The grid operations of `utils.py`: masking of no-data cells (`remove_nodata`), the
 * nearest-neighbour fill of no-data cells (`fill_nodata`), the plane `plane`, and the
 * flatten / subtract / reshape steps of `remove_offset`.
 *
 * Grids are row-major sequences of rows of reals; `None` stands for a NaN cell.
 */
module Utils {
  import opened Wrappers

  type Grid = seq<seq<real>>
  type MaskedGrid = seq<seq<Option<real>>>

  /** `g` has `ny` rows of `nx` cells each. */
  predicate IsShape<T>(g: seq<seq<T>>, ny: nat, nx: nat)
  {
    |g| == ny && forall i :: 0 <= i < ny ==> |g[i]| == nx
  }

  /** The row length of a grid (0 for a grid without rows). */
  function Cols<T>(g: seq<seq<T>>): nat
  {
    if |g| == 0 then 0 else |g[0]|
  }

  /** X, Y and Z are rectangular arrays of one shape, as numpy's boolean indexing requires. */
  predicate SameShape(X: Grid, Y: Grid, Z: Grid)
  {
    IsShape(Z, |Z|, Cols(Z)) && IsShape(X, |Z|, Cols(Z)) && IsShape(Y, |Z|, Cols(Z))
  }

  /** `g` and `m` have the same row lengths. */
  predicate Conforms<T, U>(g: seq<seq<T>>, m: seq<seq<U>>)
  {
    |g| == |m| && forall i :: 0 <= i < |g| ==> |g[i]| == |m[i]|
  }

  // ----- remove_nodata -----

  /**
   * `remove_nodata`: a copy of `Z` in which every cell at or above `thr` is NaN. The grid
   * keeps its shape, a cell is NaN exactly when it is `>= thr`, and every other cell keeps
   * its value.
   */
  function RemoveNodata(Z: Grid, thr: real): (z: MaskedGrid)
    ensures Conforms(z, Z)
    ensures forall i, j :: 0 <= i < |Z| && 0 <= j < |Z[i]| ==>
              (z[i][j].None? <==> Z[i][j] >= thr) && (z[i][j].Some? ==> z[i][j].value == Z[i][j])
  {
    seq(|Z|, i requires 0 <= i < |Z| =>
      seq(|Z[i]|, j requires 0 <= j < |Z[i]| => if Z[i][j] >= thr then None else Some(Z[i][j])))
  }

  /** The first step of `fill_nodata`: every cell exactly equal to `thr` becomes NaN. */
  function MarkMissing(Z: Grid, thr: real): (z: MaskedGrid)
    ensures Conforms(z, Z)
  {
    seq(|Z|, i requires 0 <= i < |Z| =>
      seq(|Z[i]|, j requires 0 <= j < |Z[i]| => if Z[i][j] == thr then None else Some(Z[i][j])))
  }

  /** `~np.isnan(z)`. */
  function PresentMask(z: MaskedGrid): (m: seq<seq<bool>>)
    ensures Conforms(m, z)
  {
    seq(|z|, i requires 0 <= i < |z| => seq(|z[i]|, j requires 0 <= j < |z[i]| => z[i][j].Some?))
  }

  /** The mask of valid samples `fill_nodata` computes. */
  function ValidMask(Z: Grid, thr: real): (m: seq<seq<bool>>)
    ensures Conforms(m, Z)
    ensures forall i, j :: 0 <= i < |Z| && 0 <= j < |Z[i]| ==> (m[i][j] <==> Z[i][j] != thr)
  {
    PresentMask(MarkMissing(Z, thr))
  }

  /**
   * The two masks disagree exactly above the threshold: `remove_nodata` blanks every cell
   * that `fill_nodata` treats as missing, and additionally every cell strictly above `thr`,
   * which `fill_nodata` keeps as a valid sample.
   */
  lemma MaskAsymmetry(Z: Grid, thr: real)
    ensures forall i, j :: 0 <= i < |Z| && 0 <= j < |Z[i]| ==>
              (!ValidMask(Z, thr)[i][j] ==> RemoveNodata(Z, thr)[i][j].None?) &&
              (RemoveNodata(Z, thr)[i][j].None? && ValidMask(Z, thr)[i][j] <==> Z[i][j] > thr)
  {
  }

  /** The 5x5 height map with two cells at -999 used as the example grid. */
  function ExampleGrid(): Grid
  {
    [[1.0, 2.0, 3.0, 4.0, 5.0],
     [6.0, 7.0, 8.0, 9.0, 10.0],
     [11.0, 12.0, -999.0, 14.0, 15.0],
     [16.0, 17.0, 18.0, -999.0, 20.0],
     [21.0, 22.0, 23.0, 24.0, 25.0]]
  }

  /**
   * With the threshold -999 the two no-data cells (2, 2) and (3, 3) become NaN, and so does
   * every other cell, since every height is above -999.
   */
  lemma RemoveNodataExample()
    ensures var z := RemoveNodata(ExampleGrid(), -999.0);
      && z[2][2].None? && z[3][3].None?
      && forall i, j :: 0 <= i < 5 && 0 <= j < 5 ==> z[i][j].None?
  {
    var Z := ExampleGrid();
    assert forall i, j :: 0 <= i < 5 && 0 <= j < 5 ==> Z[i][j] >= -999.0;
  }

  // ----- boolean-mask selection (`A[mask]`) -----

  datatype Cell = Cell(row: nat, col: nat)

  /** `c` comes before `d` in row-major order. */
  predicate RowMajorBefore(c: Cell, d: Cell)
  {
    c.row < d.row || (c.row == d.row && c.col < d.col)
  }

  /** The selected cells of row `i` of a mask, left to right. */
  function RowCells(m: seq<bool>, i: nat): seq<Cell>
  {
    if |m| == 0 then []
    else RowCells(m[..|m| - 1], i) + (if m[|m| - 1] then [Cell(i, |m| - 1)] else [])
  }

  /** The selected cells of a mask in row-major order. */
  function TrueCells(M: seq<seq<bool>>): seq<Cell>
  {
    if |M| == 0 then []
    else TrueCells(M[..|M| - 1]) + RowCells(M[|M| - 1], |M| - 1)
  }

  /** `a[m]` for one row. */
  function RowSelect<T>(a: seq<T>, m: seq<bool>): seq<T>
    requires |a| == |m|
  {
    if |m| == 0 then []
    else RowSelect(a[..|a| - 1], m[..|m| - 1]) + (if m[|m| - 1] then [a[|a| - 1]] else [])
  }

  /** numpy's `A[M]` for a boolean mask: the selected cells, row by row. */
  function MaskSelect<T>(A: seq<seq<T>>, M: seq<seq<bool>>): seq<T>
    requires Conforms(A, M)
  {
    if |M| == 0 then []
    else MaskSelect(A[..|A| - 1], M[..|M| - 1]) + RowSelect(A[|A| - 1], M[|M| - 1])
  }

  lemma {:induction false} RowCellsExact(m: seq<bool>, i: nat)
    ensures forall c :: c in RowCells(m, i) <==> c.row == i && c.col < |m| && m[c.col]
    ensures forall a, b :: 0 <= a < b < |RowCells(m, i)| ==> RowCells(m, i)[a].col < RowCells(m, i)[b].col
  {
    if |m| > 0 {
      var n := |m| - 1;
      RowCellsExact(m[..n], i);
      var pre := RowCells(m[..n], i);
      assert forall c :: c in pre ==> c.col < n;
    }
  }

  /** The selected cells are exactly the cells the mask holds true at. */
  lemma {:induction false} TrueCellsExact(M: seq<seq<bool>>)
    ensures forall c :: c in TrueCells(M) <==> c.row < |M| && c.col < |M[c.row]| && M[c.row][c.col]
  {
    if |M| > 0 {
      var n := |M| - 1;
      TrueCellsExact(M[..n]);
      RowCellsExact(M[n], n);
    }
  }

  /** The selected cells come in strictly increasing row-major order. */
  lemma {:induction false} TrueCellsOrdered(M: seq<seq<bool>>)
    ensures forall a, b :: 0 <= a < b < |TrueCells(M)| ==> RowMajorBefore(TrueCells(M)[a], TrueCells(M)[b])
  {
    if |M| > 0 {
      var n := |M| - 1;
      TrueCellsOrdered(M[..n]);
      TrueCellsExact(M[..n]);
      RowCellsExact(M[n], n);
      var pre := TrueCells(M[..n]);
      var last := RowCells(M[n], n);
      assert forall c :: c in pre ==> c.row < n;
      assert forall c :: c in last ==> c.row == n;
      var cells := TrueCells(M);
      assert cells == pre + last;
      forall a, b | 0 <= a < b < |cells| ensures RowMajorBefore(cells[a], cells[b]) {
        if b < |pre| {
          assert cells[a] == pre[a] && cells[b] == pre[b];
        } else if a < |pre| {
          assert cells[a] == pre[a] && cells[a] in pre;
          assert cells[b] == last[b - |pre|] && cells[b] in last;
        } else {
          assert cells[a] == last[a - |pre|] && cells[b] == last[b - |pre|];
        }
      }
    }
  }

  lemma {:induction false} RowSelectAligned<T>(a: seq<T>, m: seq<bool>, i: nat)
    requires |a| == |m|
    ensures |RowSelect(a, m)| == |RowCells(m, i)|
    ensures forall k :: 0 <= k < |RowCells(m, i)| ==>
              RowCells(m, i)[k].row == i && RowCells(m, i)[k].col < |a| &&
              RowSelect(a, m)[k] == a[RowCells(m, i)[k].col]
  {
    if |m| > 0 {
      var n := |m| - 1;
      RowSelectAligned(a[..n], m[..n], i);
    }
  }

  /** `A[M]` has one element per selected cell. */
  lemma {:induction false} MaskSelectLength<T>(A: seq<seq<T>>, M: seq<seq<bool>>)
    requires Conforms(A, M)
    ensures |MaskSelect(A, M)| == |TrueCells(M)|
  {
    if |M| > 0 {
      var n := |M| - 1;
      MaskSelectLength(A[..n], M[..n]);
      RowSelectAligned(A[n], M[n], n);
    }
  }

  /**
   * `A[M]` is `A` read at the selected cells in order: whichever array is selected, its
   * k-th element comes from the k-th selected cell, so `X[mask]`, `Y[mask]` and `Z[mask]`
   * line up element by element.
   */
  lemma {:induction false} MaskSelectAligned<T>(A: seq<seq<T>>, M: seq<seq<bool>>)
    requires Conforms(A, M)
    ensures |MaskSelect(A, M)| == |TrueCells(M)|
    ensures forall k :: 0 <= k < |TrueCells(M)| ==>
              TrueCells(M)[k].row < |A| && TrueCells(M)[k].col < |A[TrueCells(M)[k].row]| &&
              MaskSelect(A, M)[k] == A[TrueCells(M)[k].row][TrueCells(M)[k].col]
  {
    if |M| > 0 {
      var n := |M| - 1;
      MaskSelectAligned(A[..n], M[..n]);
      RowSelectAligned(A[n], M[n], n);
      var pre := TrueCells(M[..n]);
      forall k | 0 <= k < |TrueCells(M)|
        ensures TrueCells(M)[k].row < |A| && TrueCells(M)[k].col < |A[TrueCells(M)[k].row]| &&
                MaskSelect(A, M)[k] == A[TrueCells(M)[k].row][TrueCells(M)[k].col]
      {
        if k < |pre| {
          assert TrueCells(M)[k] == pre[k];
          assert MaskSelect(A, M)[k] == MaskSelect(A[..n], M[..n])[k];
        } else {
          assert TrueCells(M)[k] == RowCells(M[n], n)[k - |pre|];
          assert MaskSelect(A, M)[k] == RowSelect(A[n], M[n])[k - |pre|];
        }
      }
    }
  }

  // ----- nearest-neighbour interpolation -----

  datatype Point = Point(x: real, y: real)

  /** The squared Euclidean distance; it orders points as the distance itself does. */
  function SqDist(p: Point, q: Point): real
  {
    (p.x - q.x) * (p.x - q.x) + (p.y - q.y) * (p.y - q.y)
  }

  /** `points[k]` is at minimal distance from `q` among all the points. */
  predicate IsNearest(points: seq<Point>, q: Point, k: int)
  {
    0 <= k < |points| && forall l :: 0 <= l < |points| ==> SqDist(points[k], q) <= SqDist(points[l], q)
  }

  /** The index of a sample point at minimal distance from `q` (the first such one). */
  function NearestIndex(points: seq<Point>, q: Point): (k: nat)
    requires |points| > 0
    ensures IsNearest(points, q, k)
  {
    if |points| == 1 then 0
    else
      var k := NearestIndex(points[..|points| - 1], q);
      if SqDist(points[|points| - 1], q) < SqDist(points[k], q) then |points| - 1 else k
  }

  /** `v` is the value of a sample point nearest to `q`. */
  ghost predicate NearestValue(points: seq<Point>, values: seq<real>, q: Point, v: real)
  {
    exists k :: IsNearest(points, q, k) && k < |values| && v == values[k]
  }

  /** The value at the chosen nearest index is a nearest value. */
  lemma NearestIndexValue(points: seq<Point>, values: seq<real>)
    requires |points| == |values| > 0
    ensures forall q :: NearestValue(points, values, q, values[NearestIndex(points, q)])
  {
    forall q ensures NearestValue(points, values, q, values[NearestIndex(points, q)]) {
      var k := NearestIndex(points, q);
      assert IsNearest(points, q, k);
    }
  }

  /**
   * `griddata(points, values, (X, Y), method='nearest')`: every grid position takes the
   * value of a sample point nearest to it.
   */
  function NearestGrid(points: seq<Point>, values: seq<real>, X: Grid, Y: Grid): (r: Grid)
    requires |points| == |values| > 0
    requires IsShape(Y, |X|, Cols(X)) && IsShape(X, |X|, Cols(X))
    ensures IsShape(r, |X|, Cols(X))
    ensures forall i, j :: 0 <= i < |X| && 0 <= j < Cols(X) ==>
              NearestValue(points, values, Point(X[i][j], Y[i][j]), r[i][j])
  {
    NearestIndexValue(points, values);
    seq(|X|, i requires 0 <= i < |X| =>
      seq(Cols(X), j requires 0 <= j < Cols(X) => values[NearestIndex(points, Point(X[i][j], Y[i][j]))]))
  }

  /**
   * `np.column_stack((X[mask], Y[mask]))`: one point per selected cell, in selection order,
   * made of that cell's x and y coordinates.
   */
  function SamplePoints(X: Grid, Y: Grid, mask: seq<seq<bool>>): (points: seq<Point>)
    requires Conforms(X, mask) && Conforms(Y, mask)
    ensures |points| == |TrueCells(mask)|
    ensures forall k :: 0 <= k < |TrueCells(mask)| ==>
              TrueCells(mask)[k].row < |X| && TrueCells(mask)[k].col < |X[TrueCells(mask)[k].row]| &&
              TrueCells(mask)[k].row < |Y| && TrueCells(mask)[k].col < |Y[TrueCells(mask)[k].row]| &&
              points[k] == Point(X[TrueCells(mask)[k].row][TrueCells(mask)[k].col],
                                 Y[TrueCells(mask)[k].row][TrueCells(mask)[k].col])
  {
    MaskSelectAligned(X, mask);
    MaskSelectAligned(Y, mask);
    var xs, ys := MaskSelect(X, mask), MaskSelect(Y, mask);
    seq(|xs|, k requires 0 <= k < |xs| => Point(xs[k], ys[k]))
  }

  datatype FillError = NoValidSamples

  /** The cell (p, q) of Z holds a valid sample: it is not the no-data value. */
  predicate IsValid(Z: Grid, thr: real, p: int, q: int)
  {
    0 <= p < |Z| && 0 <= q < |Z[p]| && Z[p][q] != thr
  }

  /** No valid sample is left exactly when every cell holds the no-data value. */
  lemma NoSamplesIffAllMissing(Z: Grid, thr: real)
    ensures |TrueCells(ValidMask(Z, thr))| == 0 <==> forall i, j :: 0 <= i < |Z| && 0 <= j < |Z[i]| ==> Z[i][j] == thr
  {
    var mask := ValidMask(Z, thr);
    TrueCellsExact(mask);
    if |TrueCells(mask)| == 0 {
      forall i, j | 0 <= i < |Z| && 0 <= j < |Z[i]| ensures Z[i][j] == thr {
        assert Cell(i, j) !in TrueCells(mask);
      }
    } else {
      var c := TrueCells(mask)[0];
      assert c in TrueCells(mask);
      assert Z[c.row][c.col] != thr;
    }
  }

  /** The squared distance between cells (i, j) and (p, q) of the coordinate grids. */
  function CellDist(X: Grid, Y: Grid, i: nat, j: nat, p: nat, q: nat): real
    requires i < |X| && j < |X[i]| && p < |X| && q < |X[p]|
    requires i < |Y| && j < |Y[i]| && p < |Y| && q < |Y[p]|
  {
    SqDist(Point(X[p][q], Y[p][q]), Point(X[i][j], Y[i][j]))
  }

  /** (p, q) is a valid sample cell, at minimal distance from cell (i, j) among all valid sample cells. */
  ghost predicate NearestValid(X: Grid, Y: Grid, Z: Grid, thr: real, i: nat, j: nat, p: int, q: int)
    requires SameShape(X, Y, Z) && i < |Z| && j < Cols(Z)
  {
    IsValid(Z, thr, p, q) &&
    forall p', q' :: IsValid(Z, thr, p', q') ==> CellDist(X, Y, i, j, p, q) <= CellDist(X, Y, i, j, p', q')
  }

  /**
   * `fill_nodata`: the cells equal to `thr` are dropped, the remaining cells are the sample
   * points, and the whole grid is re-evaluated by nearest-neighbour interpolation. It fails
   * exactly when no valid sample is left; otherwise the result has the shape of `Z`.
   */
  function FillNodata(X: Grid, Y: Grid, Z: Grid, thr: real): (r: Result<Grid, FillError>)
    requires SameShape(X, Y, Z)
    ensures r.Failure? <==> forall i, j :: 0 <= i < |Z| && 0 <= j < |Z[i]| ==> Z[i][j] == thr
    ensures r.Success? ==> IsShape(r.value, |Z|, Cols(Z))
  {
    var mask := ValidMask(Z, thr);
    MaskSelectLength(Z, mask);
    NoSamplesIffAllMissing(Z, thr);
    var points, values := SamplePoints(X, Y, mask), MaskSelect(Z, mask);
    if |values| == 0 then Failure(NoValidSamples)
    else Success(NearestGrid(points, values, X, Y))
  }

  /**
   * Cell (i, j) of the filled grid holds the height of the valid sample cell (p, q), which is
   * nearest to (i, j) among all valid sample cells; in particular it is neither `thr` nor NaN.
   */
  lemma FillNodataNearestAt(X: Grid, Y: Grid, Z: Grid, thr: real, i: nat, j: nat) returns (p: int, q: int)
    requires SameShape(X, Y, Z) && i < |Z| && j < Cols(Z)
    requires FillNodata(X, Y, Z, thr).Success?
    ensures NearestValid(X, Y, Z, thr, i, j, p, q)
    ensures FillNodata(X, Y, Z, thr).value[i][j] == Z[p][q] != thr
  {
    var r := FillNodata(X, Y, Z, thr);
    var mask := ValidMask(Z, thr);
    var cells := TrueCells(mask);
    var points, values := SamplePoints(X, Y, mask), MaskSelect(Z, mask);
    MaskSelectLength(Z, mask);
    assert r.value == NearestGrid(points, values, X, Y);
    assert NearestValue(points, values, Point(X[i][j], Y[i][j]), r.value[i][j]);
    var k :| IsNearest(points, Point(X[i][j], Y[i][j]), k) && k < |values| && r.value[i][j] == values[k];
    SampleAt(X, Y, Z, thr, k);
    p, q := cells[k].row, cells[k].col;
    forall p', q' | IsValid(Z, thr, p', q') ensures CellDist(X, Y, i, j, p, q) <= CellDist(X, Y, i, j, p', q') {
      var l := SampleIndexOf(X, Y, Z, thr, p', q');
      assert points[l] == Point(X[p'][q'], Y[p'][q']);
    }
  }

  /**
   * Every cell of the filled grid holds the height of a valid sample cell that is nearest
   * to it among all valid sample cells; in particular no cell holds `thr` and none is NaN.
   */
  lemma FillNodataNearest(X: Grid, Y: Grid, Z: Grid, thr: real)
    requires SameShape(X, Y, Z)
    ensures var r := FillNodata(X, Y, Z, thr);
      r.Success? ==>
        forall i, j :: 0 <= i < |Z| && 0 <= j < Cols(Z) ==>
          r.value[i][j] != thr &&
          exists p, q :: NearestValid(X, Y, Z, thr, i, j, p, q) && r.value[i][j] == Z[p][q]
  {
    var r := FillNodata(X, Y, Z, thr);
    if r.Success? {
      forall i, j | 0 <= i < |Z| && 0 <= j < Cols(Z)
        ensures r.value[i][j] != thr &&
                exists p, q :: NearestValid(X, Y, Z, thr, i, j, p, q) && r.value[i][j] == Z[p][q]
      {
        var p, q := FillNodataNearestAt(X, Y, Z, thr, i, j);
      }
    }
  }

  /** The k-th sample is the k-th valid cell: its point is that cell's coordinates, its value that cell's height. */
  lemma SampleAt(X: Grid, Y: Grid, Z: Grid, thr: real, k: int)
    requires SameShape(X, Y, Z)
    requires 0 <= k < |TrueCells(ValidMask(Z, thr))|
    ensures var c := TrueCells(ValidMask(Z, thr))[k];
      && IsValid(Z, thr, c.row, c.col)
      && k < |SamplePoints(X, Y, ValidMask(Z, thr))| && k < |MaskSelect(Z, ValidMask(Z, thr))|
      && SamplePoints(X, Y, ValidMask(Z, thr))[k] == Point(X[c.row][c.col], Y[c.row][c.col])
      && MaskSelect(Z, ValidMask(Z, thr))[k] == Z[c.row][c.col]
  {
    var mask := ValidMask(Z, thr);
    MaskSelectAligned(X, mask);
    MaskSelectAligned(Y, mask);
    MaskSelectAligned(Z, mask);
    TrueCellsExact(mask);
    assert TrueCells(mask)[k] in TrueCells(mask);
  }

  /** Every valid cell is one of the samples. */
  lemma SampleIndexOf(X: Grid, Y: Grid, Z: Grid, thr: real, p: int, q: int) returns (l: int)
    requires SameShape(X, Y, Z)
    requires IsValid(Z, thr, p, q)
    ensures 0 <= l < |TrueCells(ValidMask(Z, thr))| && TrueCells(ValidMask(Z, thr))[l] == Cell(p, q)
    ensures l < |SamplePoints(X, Y, ValidMask(Z, thr))| &&
            SamplePoints(X, Y, ValidMask(Z, thr))[l] == Point(X[p][q], Y[p][q])
  {
    var mask := ValidMask(Z, thr);
    TrueCellsExact(mask);
    assert Cell(p, q) in TrueCells(mask);
    l :| 0 <= l < |TrueCells(mask)| && TrueCells(mask)[l] == Cell(p, q);
    SampleAt(X, Y, Z, thr, l);
  }

  // ----- plane and remove_offset -----

  /** `plane((x, y), a, b, c)`. */
  function Plane(x: real, y: real, a: real, b: real, c: real): real
  {
    a * x + b * y + c
  }

  /**
   * The plane is affine: it takes the value `c` at the origin, rises by `a` per unit of x and
   * by `b` per unit of y, and the difference of two planes is the plane of the differences.
   */
  lemma PlaneAffine(x: real, y: real, dx: real, dy: real, a: real, b: real, c: real, a': real, b': real, c': real)
    ensures Plane(0.0, 0.0, a, b, c) == c
    ensures Plane(x + dx, y + dy, a, b, c) == Plane(x, y, a, b, c) + a * dx + b * dy
    ensures Plane(x, y, a, b, c) - Plane(x, y, a', b', c') == Plane(x, y, a - a', b - b', c - c')
  {
  }

  /** `A.ravel()`: the cells in row-major order. */
  function Ravel(g: Grid): (v: seq<real>)
  {
    if |g| == 0 then [] else Ravel(g[..|g| - 1]) + g[|g| - 1]
  }

  lemma MulMono(a: nat, b: nat, n: nat)
    requires a <= b
    ensures a * n <= b * n
  {
  }

  /** Row `i < ny` of an ny×nx grid, flattened, ends within the flattened grid. */
  lemma RowEnd(i: nat, ny: nat, nx: nat)
    requires i < ny
    ensures i * nx + nx <= ny * nx
  {
    MulMono(i + 1, ny, nx);
    assert (i + 1) * nx == i * nx + nx;
  }

  /** Flattening an ny×nx grid gives ny·nx values. */
  lemma {:induction false} RavelLength(g: Grid, ny: nat, nx: nat)
    requires IsShape(g, ny, nx)
    ensures |Ravel(g)| == ny * nx
  {
    if ny > 0 {
      RavelLength(g[..ny - 1], ny - 1, nx);
      assert (ny - 1) * nx + nx == ny * nx;
    }
  }

  /** Flattening is row-major: cell (i, j) of an ny×nx grid lands at position `i * nx + j`. */
  lemma {:induction false} RavelAt(g: Grid, ny: nat, nx: nat, i: nat, j: nat)
    requires IsShape(g, ny, nx) && i < ny && j < nx
    ensures i * nx + j < |Ravel(g)| && Ravel(g)[i * nx + j] == g[i][j]
  {
    var n := ny - 1;
    RavelLength(g[..n], n, nx);
    RavelLength(g, ny, nx);
    RowEnd(i, ny, nx);
    if i < n {
      RavelAt(g[..n], n, nx, i, j);
    }
  }

  /** `v.reshape(ny, nx)`: the vector cut into `ny` consecutive rows of `nx` elements. */
  function Reshape(v: seq<real>, ny: nat, nx: nat): (g: Grid)
    requires |v| == ny * nx
    ensures IsShape(g, ny, nx)
  {
    if ny == 0 then []
    else
      assert |v| - nx == (ny - 1) * nx;
      Reshape(v[..|v| - nx], ny - 1, nx) + [v[|v| - nx..]]
  }

  /** Flattening and reshaping back to the same shape gives the grid back. */
  lemma {:induction false} ReshapeRavel(g: Grid, ny: nat, nx: nat)
    requires IsShape(g, ny, nx)
    ensures |Ravel(g)| == ny * nx && Reshape(Ravel(g), ny, nx) == g
  {
    RavelLength(g, ny, nx);
    if ny > 0 {
      var n := ny - 1;
      ReshapeRavel(g[..n], n, nx);
      var v := Ravel(g);
      assert v == Ravel(g[..n]) + g[n];
      assert v[..|v| - nx] == Ravel(g[..n]);
      assert v[|v| - nx..] == g[n];
      assert g == g[..n] + [g[n]];
    }
  }

  /** Reshaping a vector of length ny·nx and flattening it again gives the vector back. */
  lemma {:induction false} RavelReshape(v: seq<real>, ny: nat, nx: nat)
    requires |v| == ny * nx
    ensures Ravel(Reshape(v, ny, nx)) == v
  {
    if ny > 0 {
      assert |v| - nx == (ny - 1) * nx;
      var g := Reshape(v, ny, nx);
      RavelReshape(v[..|v| - nx], ny - 1, nx);
      assert g[..ny - 1] == Reshape(v[..|v| - nx], ny - 1, nx);
      assert v == v[..|v| - nx] + v[|v| - nx..];
    }
  }

  /** `z_data - plane((x_data, y_data), a, b, c)` on the flattened arrays. */
  function Residual(xd: seq<real>, yd: seq<real>, zd: seq<real>, a: real, b: real, c: real): (res: seq<real>)
    requires |xd| == |yd| == |zd|
    ensures |res| == |zd| && forall k :: 0 <= k < |zd| ==> res[k] == zd[k] - Plane(xd[k], yd[k], a, b, c)
  {
    seq(|zd|, k requires 0 <= k < |zd| => zd[k] - Plane(xd[k], yd[k], a, b, c))
  }

  /** The residual computed cell by cell on the grids themselves. */
  function CellResidual(X: Grid, Y: Grid, Z: Grid, a: real, b: real, c: real): (r: Grid)
    requires Conforms(X, Z) && Conforms(Y, Z)
  {
    seq(|Z|, i requires 0 <= i < |Z| =>
      seq(|Z[i]|, j requires 0 <= j < |Z[i]| => Z[i][j] - Plane(X[i][j], Y[i][j], a, b, c)))
  }

  /** Subtracting the plane from the flattened arrays is flattening the cell-by-cell residual. */
  lemma {:induction false} ResidualRavel(X: Grid, Y: Grid, Z: Grid, a: real, b: real, c: real)
    requires Conforms(X, Z) && Conforms(Y, Z)
    ensures |Ravel(X)| == |Ravel(Y)| == |Ravel(Z)|
    ensures Residual(Ravel(X), Ravel(Y), Ravel(Z), a, b, c) == Ravel(CellResidual(X, Y, Z, a, b, c))
  {
    if |Z| > 0 {
      var n := |Z| - 1;
      ResidualRavel(X[..n], Y[..n], Z[..n], a, b, c);
      var pre := CellResidual(X[..n], Y[..n], Z[..n], a, b, c);
      var r := CellResidual(X, Y, Z, a, b, c);
      assert r[..n] == pre;
      var lhs := Residual(Ravel(X), Ravel(Y), Ravel(Z), a, b, c);
      var rhs := Ravel(r);
      assert rhs == Ravel(pre) + r[n];
      assert |lhs| == |rhs|;
      forall k | 0 <= k < |lhs| ensures lhs[k] == rhs[k] {
        var m := |Ravel(Z[..n])|;
        if k < m {
          assert lhs[k] == Residual(Ravel(X[..n]), Ravel(Y[..n]), Ravel(Z[..n]), a, b, c)[k];
        }
      }
    }
  }

  /**
   * The residual step of `remove_offset` for given plane parameters: X, Y and Z are
   * flattened, the plane is subtracted pointwise, and the result is reshaped to ny×nx.
   * Every cell of the result is the height minus the plane at that cell's coordinates.
   */
  function RemoveOffset(X: Grid, Y: Grid, Z: Grid, a: real, b: real, c: real): (r: Grid)
    requires SameShape(X, Y, Z)
    ensures IsShape(r, |Z|, Cols(Z))
    ensures forall i, j :: 0 <= i < |Z| && 0 <= j < Cols(Z) ==> r[i][j] == Z[i][j] - Plane(X[i][j], Y[i][j], a, b, c)
  {
    var ny, nx := |Z|, Cols(Z);
    ResidualRavel(X, Y, Z, a, b, c);
    RavelLength(Z, ny, nx);
    ReshapeRavel(CellResidual(X, Y, Z, a, b, c), ny, nx);
    Reshape(Residual(Ravel(X), Ravel(Y), Ravel(Z), a, b, c), ny, nx)
  }

  /**
   * Removing a plane from heights that lie exactly on a plane leaves the difference of the two
   * planes; when the parameters are the generating ones, every residual is zero.
   */
  lemma RemoveExactPlane(X: Grid, Y: Grid, Z: Grid, a0: real, b0: real, c0: real, a: real, b: real, c: real)
    requires SameShape(X, Y, Z)
    requires forall i, j :: 0 <= i < |Z| && 0 <= j < |Z[i]| ==> Z[i][j] == Plane(X[i][j], Y[i][j], a0, b0, c0)
    ensures var r := RemoveOffset(X, Y, Z, a, b, c);
      forall i, j :: 0 <= i < |Z| && 0 <= j < Cols(Z) ==> r[i][j] == Plane(X[i][j], Y[i][j], a0 - a, b0 - b, c0 - c)
    ensures var r := RemoveOffset(X, Y, Z, a0, b0, c0);
      forall i, j :: 0 <= i < |Z| && 0 <= j < Cols(Z) ==> r[i][j] == 0.0
  {
  }
}

=== FILE: wrappers.dfy ===
/** Failure-carrying wrappers shared by the reader and the grid utilities. */
module Wrappers {

  /** An optional value: `None` stands for an absent entry or a NaN cell. */
  datatype Option<+T> = None | Some(value: T)

  /** The outcome of an operation that can raise. */
  datatype Result<+T, +E> = Success(value: T) | Failure(error: E)
}
